=== FILE: README.md ===
# Movie-review corpus tools: rendering and split layout in Dafny

This project models the pure core of a small toolkit that samples the Stanford "Large Movie
Review Dataset" into train, dev and test files and shows results in a notebook:

- **Markdown rendering** (`ipython_utils.py`). `print_h4` shows a level-four heading.
  `print_table` turns a header and rows into Markdown table lines and joins them with
  newlines. The header line has no padding inside its outer bars. Data lines do. The
  separator line takes its width from the first data row, not from the header, and is
  left out when there are no rows. `display_markdown` is only a sink: each model function
  returns the text that would be handed to it.
- **Split layout and records** (`corpora_utils.py`). Positive files are labelled `1` and
  negative files `-1`. Train and dev are cut from one draw of `train_size + dev_size`
  entries over the training files. Test is a separate draw of `test_size` entries over the
  test files. `_save_dataset` writes one `"<label> <review>\n"` record per sampled
  (class, index) entry, in order. The review is not escaped.

Modules:

- `Wrappers` (`wrappers.dfy`): `Option` and `Result`.
- `Strings` (`strings.dfy`): Python's `sep.join`, `s.split(c)`, `s * n` and `find`, with the
  split/join round trips.
- `Decimal` (`decimal.dfy`): `str(i)` for integers and a reader that inverts it. The length limit that makes Python's `str` refuse integers of more than 4300 digits is not modelled (see "## Left out").
- `Markdown` (`markdown.dfy`): `print_h4` and `print_table`. They are checked against an
  ATX-heading reader and against a reader's view of a table line split at `|`.
- `Corpora` (`corpora.dfy`): the label dictionaries, the population description given to
  the sampler, the train/dev/test cut, the lookup `class_files[c][i]`, and the record writer.
  The writer is checked against a record reader (`DecodeRecord`).

The sampler `get_sample_dataset` is imported by the code, but its source is not part of
this model. It is a parameter (`Corpora.Sampler`) that also takes the number of the call, so
the train/dev draw (call 0) and the test draw (call 1) are separate random draws. Nothing is
assumed about the entries it returns beyond what a lemma's `requires` states. The file system is a map from path to
content (`fs`), and the glob results are the path lists of a `CorpusPart`.

The review is written unchanged, so its newlines reach the file (`Corpora.RecordNewlines`). The code also follows Python semantics for
negative numbers. A negative index in `class_files[c][i]` counts from the end
(`Corpora.PyIndex`, `Corpora.LookupFromEnd`), and a negative `train_size` slices from the end (`Corpora.SampleSplits`).

## Model

| member | source | states |
|---|---|---|
| Markdown.H4 | ipython_utils.py:4-5 | The text shown by `print_h4(s)` reads back as an ATX heading of level four whose text is exactly `s`, for every `s` |
| Markdown.Str | ipython_utils.py:14 | `str(cell)` leaves text cells unchanged; an integer cell prints as canonical decimal text (no leading zero, no `-0`) that reads back as the same integer, which fixes the text exactly (`Decimal.CanonicalUnique`) |
| Markdown.TableLines | ipython_utils.py:9-14 | The table has 1 line when there are no rows and `|rows| + 2` otherwise. Line 0 is the header line. Line 1 is the separator sized by the first row. Row `k` is line `k + 2`, so the input order is kept |
| Markdown.PrintTable | ipython_utils.py:8-15 | The `enumerate` loop, which adds the separator only at index 0, yields exactly the declarative table lines joined by newlines |
| Markdown.HeaderColumns | ipython_utils.py:9 | Read as columns between bars (cells without `|`), the header shows each cell with one space next to each inner bar and none next to the opening or closing bar. An empty header gives one empty column |
| Markdown.RowColumns | ipython_utils.py:14 | Read as columns between bars, a data line shows every `str(cell)` with exactly one space on each side. An empty row gives one column of two spaces |
| Markdown.HeaderUnpadded | ipython_utils.py:9-14 | A header line and a data line with the same texts differ only by the space after the opening bar and the space before the closing bar |
| Markdown.SeparatorColumns | ipython_utils.py:13 | Read as columns between bars, the separator for `n` columns shows exactly `n` columns of `--` |
| Markdown.SeparatorPlacement | ipython_utils.py:10-14 | When there are rows, line 1 has the separator's shape and exactly as many columns as the first row has cells. No later line ever has that shape. With no rows the table is the header line alone. The header line itself may have the separator's shape (a single header cell `--`) |
| Markdown.SeparatorIgnoresHeader | ipython_utils.py:11-13 | Two tables with the same rows and different headers have the same separator and the same lines after the header, so the header's width never enters the separator |
| Markdown.LineBars | ipython_utils.py:9-14 | Every table line is non-empty and starts and ends with `|` |
| Markdown.RenderedEnds | ipython_utils.py:15 | `RenderTable`, the text handed to the sink, starts with `|` and ends with `|`, so it has no trailing newline |
| Markdown.RenderedLines | ipython_utils.py:15 | When no cell contains a newline, splitting `RenderTable`'s text at newlines gives back exactly the table lines |
| Strings.SplitJoin | ipython_utils.py:15 | Joining parts that do not contain a one-character separator, then splitting on it, gives back the parts |
| Corpora.PopulationMatchesFiles | corpora_utils.py:56-73 | `Population`, the description given to the sampler, lists class `1` and then class `-1`. These are exactly the keys of the file dictionary `ClassFiles`, and each class's count is the number of its files |
| Corpora.SampleSplits | corpora_utils.py:68-73 | Train followed by dev is exactly the one combined draw of `train_size + dev_size`. For `train_size >= 0`, train has `min(train_size, |draw|)` entries; a negative `train_size` counts from the end. Test is the separate draw (call 1) over the test files |
| Corpora.DrawsIndependent | corpora_utils.py:68-73 | The two `get_sample_dataset` calls are independent draws: any train/dev draw together with any test draw is produced by some sampler, even for parts with equal class counts and equal draw sizes |
| Corpora.SplitSizes | corpora_utils.py:68-73 | When the sampler returns full-size draws and the sizes are non-negative, train, dev and test have exactly the requested sizes |
| Corpora.DefaultSplitSizes | corpora_utils.py:20 | With the default arguments `5000, 1000, 5000` and full draws, train, dev and test hold 5000, 1000 and 5000 entries |
| Corpora.PyIndex | corpora_utils.py:92 | Indexing succeeds exactly for indices from `-len` up to `len - 1`, and yields `xs[i]` for a non-negative `i` and `xs[len + i]` for a negative one |
| Corpora.IndexFromEnd | corpora_utils.py:92 | A negative index in range names the same element as `len` plus that index; `-1` names the last element |
| Corpora.LookupFromEnd | corpora_utils.py:92-93 | Looking up a negative in-range index reads the same file, or fails in the same way, as the matching non-negative index |
| Corpora.LookupCases | corpora_utils.py:92-93 | `Lookup` (`class_files[c][i]`, then reading the file) fails with `MissingClass` for a label that is not a key. An index outside Python's range fails with `IndexOutOfRange`. An index in Python's range, negative ones included, reads the file at the normalised position, or fails with `MissingFile` when that path does not exist |
| Corpora.SampledEntriesFound | corpora_utils.py:68-92 | Entries whose label is a class of the part's population and whose index is below that class's count are all found, provided every file of the part exists |
| Corpora.SaveDataset | corpora_utils.py:89-94 | The file is complete exactly when every entry is found, and then holds one record per entry in order. Otherwise it holds the records of the entries before the first missing one, and the error is that entry's lookup error |
| Corpora.RecordRoundTrip | corpora_utils.py:94 | A record written by `EncodeRecord` reads back through `DecodeRecord` as its label and its review for every integer label and every review, including reviews with spaces or newlines |
| Corpora.RecordNewlines | corpora_utils.py:94 | A record written by `EncodeRecord` has exactly one newline more than its review: review newlines are not removed or escaped |
| Corpora.SavedLines | corpora_utils.py:91-94 | When no review contains a newline, the written split has one line per entry, in entry order, each reading back as that entry's label and review, and nothing after the last line end |
| Decimal.IntToString | corpora_utils.py:94 | The label text is in `str(int)`'s canonical shape: an optional `-` and digits with no leading zero and never `-0`. It has no space or newline, and starts with `-` exactly for negative labels |
| Decimal.CanonicalRoundTrip | ipython_utils.py:14 | Every canonical decimal text is exactly what `str(i)` writes for the integer it reads as |
| Decimal.CanonicalUnique | ipython_utils.py:14 | Two canonical texts that read as the same integer are equal, so the canonical shape and the value fix the text of an integer cell or label |
| Decimal.IntRoundTrip | corpora_utils.py:94 | The decimal text that `'{}'.format(c)` writes for any integer label reads back as that label |

## Left out

- `get_sample_dataset`, `get_stanford_imbd_vocabulary` and `get_stanford_imdb_markup_vocabulary`: they are imported, but their source is not part of this model. The sampler is a parameter. The vocabulary functions are not modelled.
- Directory checks and creation, `glob`, `uuid` temp paths, `codecs.open` and UTF-8 decoding in `corpora_utils.py`: this is file-system plumbing. Reading a review is a lookup in the `fs` map, and a file that cannot be opened is `MissingFile`. Decoding errors are not modelled.
- The commented-out download and archive unpacking in `corpora_utils.py`: network and archive handling.
- Debug logging in `sample_stanford_imdb_dataset`. The dev and test messages print the train file path, but they have no effect on the files written.
- Reading the three output paths from configuration: each split's text is returned instead of written to a configured path. The three `_save_dataset` calls are independent functions of their entries. The model does not state that a failure while writing train stops dev and test from being written.
- `ConfigHelper` in `utils.py`: a thin wrapper over a configuration-parser library that is not part of this model. Its `default_value` argument is ignored by the code.
- `corpora_tools.py`: command-line dispatch on `sys.argv` and printing of sorted vocabularies over functions that are not part of this model.
- `display_markdown` and the IPython display machinery: a foreign output sink. `print_md` only forwards its text, so it has no separate member.
- Markdown.Str: `str(cell)` is modelled for text and integer cells only. Floats, booleans and other objects are left out because their string forms depend on Python's formatting rules. An integer of more than 4300 digits makes CPython's `str` raise `ValueError` (the limit set by `sys.set_int_max_str_digits`); the model writes its digits. Record labels are only `1` and `-1`, so records are not affected.
- Markdown.HeaderColumns: header cells are strings, as `' | '.join(header)` requires. The `TypeError` for a non-string header cell is not modelled.
- The unit tests: they depend on real files, configuration and an archive. Their split sizes (5, 3 and 5) are an instance of `Corpora.SplitSizes`. They count lines with `readlines()`, which also breaks at other Unicode line boundaries (`\r`, `\x0b`, `\x0c`, `\x1c`-`\x1e`, `\x85`, `\u2028`, `\u2029`). `Corpora.SavedLines` splits at `\n` only, so it matches the tests' line count only for reviews free of all of these.
- Markdown.H4: the heading reader `ParseHeading` is simplified. It does not strip a closing `#` run or trim the text, and it reads a string holding a newline as one line. A heading text with a newline does not render as a single Markdown heading.

=== FILE: corpora.dfy ===
/** The pure core of the movie-review corpus sampler: how sampled indices are cut into
    train/dev/test splits, and how a split is written out as `<label> <review>` records. */
module Corpora {
  import opened Wrappers
  import opened Strings
  import Decimal

  /** Review polarity as the corpus files label it. */
  type Label = int

  const Positive: Label := 1
  const Negative: Label := -1

  /** Default split sizes of `sample_stanford_imdb_dataset`. */
  const DefaultTrainSize: int := 5000
  const DefaultDevSize: int := 1000
  const DefaultTestSize: int := 5000

  /** One sampled entry: a class label and a position in that class's file list. */
  datatype Entry = Entry(cls: Label, index: int)

  /** One class of the population description handed to the sampler. */
  datatype ClassCount = ClassCount(cls: Label, count: nat)

  /** The review files (paths) of one part of the archive, by class. */
  datatype CorpusPart = CorpusPart(pos: seq<string>, neg: seq<string>)

  /** The dictionary `{1: positive files, -1: negative files}`. */
  function ClassFiles(part: CorpusPart): map<Label, seq<string>> {
    map[Positive := part.pos, Negative := part.neg]
  }

  /** `[(c, len(arr)) for c, arr in class_files.items()]`, in the dictionary's insertion order. */
  function Population(part: CorpusPart): seq<ClassCount> {
    [ClassCount(Positive, |part.pos|), ClassCount(Negative, |part.neg|)]
  }

  /** The population handed to the sampler describes exactly the classes of the file
      dictionary, positive first, each with its number of files. */
  lemma PopulationMatchesFiles(part: CorpusPart)
    ensures var pop, files := Population(part), ClassFiles(part);
      && |pop| == 2 && pop[0].cls == Positive && pop[1].cls == Negative
      && (forall k :: 0 <= k < |pop| ==> pop[k].cls in files && pop[k].count == |files[pop[k].cls]|)
      && (forall c :: c in files <==> c == Positive || c == Negative)
  {
  }

  // ---------------------------------------------------------------- train/dev/test split

  function Min(a: int, b: int): int {
    if a <= b then a else b
  }

  function Max(a: int, b: int): int {
    if a >= b then a else b
  }

  /** Where Python's `xs[:k]` stops and `xs[k:]` starts; a negative `k` counts from the end. */
  function SliceBound(len: nat, k: int): (b: nat)
    ensures b <= len
  {
    if k >= 0 then Min(k, len) else Max(len + k, 0)
  }

  /** The entries of the three splits. */
  datatype Splits = Splits(train: seq<Entry>, dev: seq<Entry>, test: seq<Entry>)

  /** The sampler: the number of the call (each call is a fresh random draw), a population
      description and a sample size to a list of entries. */
  type Sampler = (nat, seq<ClassCount>, int) -> seq<Entry>

  /** The call that draws train and dev together. */
  const TrainDevDraw: nat := 0
  /** The call that draws test. */
  const TestDraw: nat := 1

  /** The index part of `sample_stanford_imdb_dataset`: train and dev are cut from ONE draw
      of `trainSize + devSize` entries over the training files, test is a separate draw of
      `testSize` entries over the test files. */
  function SampleSplits(trainSize: int, devSize: int, testSize: int,
                        training: CorpusPart, testing: CorpusPart, sample: Sampler): (r: Splits)
    ensures var drawn := sample(TrainDevDraw, Population(training), trainSize + devSize);
      && r.train + r.dev == drawn
      && (trainSize >= 0 ==> |r.train| == Min(trainSize, |drawn|))
      && (trainSize < 0 ==> |r.train| == Max(|drawn| + trainSize, 0))
    ensures r.test == sample(TestDraw, Population(testing), testSize)
  {
    var drawn := sample(TrainDevDraw, Population(training), trainSize + devSize);
    var cut := SliceBound(|drawn|, trainSize);
    assert drawn[..cut] + drawn[cut..] == drawn;
    Splits(drawn[..cut], drawn[cut..], sample(TestDraw, Population(testing), testSize))
  }

  /** The two draws are independent: whatever the train/dev draw and the test draw are, even
      over parts with the same class counts and of the same size, some sampler produces them. */
  lemma DrawsIndependent(trainSize: int, devSize: int, testSize: int,
                         training: CorpusPart, testing: CorpusPart, trainDev: seq<Entry>, test: seq<Entry>)
    ensures var sample: Sampler := (n: nat, pop: seq<ClassCount>, size: int) => if n == TrainDevDraw then trainDev else test;
      var r := SampleSplits(trainSize, devSize, testSize, training, testing, sample);
      r.train + r.dev == trainDev && r.test == test
  {
  }

  /** When the sampler delivers the full request, the splits have exactly the requested sizes. */
  lemma SplitSizes(trainSize: int, devSize: int, testSize: int,
                   training: CorpusPart, testing: CorpusPart, sample: Sampler)
    requires trainSize >= 0 && devSize >= 0
    requires |sample(TrainDevDraw, Population(training), trainSize + devSize)| == trainSize + devSize
    requires |sample(TestDraw, Population(testing), testSize)| == testSize
    ensures var r := SampleSplits(trainSize, devSize, testSize, training, testing, sample);
      |r.train| == trainSize && |r.dev| == devSize && |r.test| == testSize
  {
  }

  /** With the default arguments and full draws, the splits hold 5000, 1000 and 5000 entries. */
  lemma DefaultSplitSizes(training: CorpusPart, testing: CorpusPart, sample: Sampler)
    requires |sample(TrainDevDraw, Population(training), DefaultTrainSize + DefaultDevSize)| == 6000
    requires |sample(TestDraw, Population(testing), DefaultTestSize)| == 5000
    ensures var r := SampleSplits(DefaultTrainSize, DefaultDevSize, DefaultTestSize, training, testing, sample);
      |r.train| == 5000 && |r.dev| == 1000 && |r.test| == 5000
  {
  }

  // ---------------------------------------------------------------- records

  /** Why writing a split stopped: `KeyError`, `IndexError`, or a review file that cannot be opened. */
  datatype LookupError = MissingClass(cls: Label) | IndexOutOfRange(cls: Label, index: int) | MissingFile(path: string)

  /** Python list indexing: a negative index counts from the end, anything else out of range fails. */
  function PyIndex<T>(xs: seq<T>, i: int): (r: Option<T>)
    ensures r.Some? <==> -|xs| <= i < |xs|
    ensures r.Some? ==> r.value == xs[if i >= 0 then i else |xs| + i]
  {
    if 0 <= i < |xs| then Some(xs[i])
    else if -|xs| <= i < 0 then Some(xs[|xs| + i])
    else None
  }

  /** `class_files[c][i]` followed by reading that file from the file system `fs`. */
  function Lookup(files: map<Label, seq<string>>, fs: map<string, string>, e: Entry): Result<string, LookupError> {
    if e.cls !in files then Failure(MissingClass(e.cls))
    else match PyIndex(files[e.cls], e.index)
      case None => Failure(IndexOutOfRange(e.cls, e.index))
      case Some(path) => if path in fs then Success(fs[path]) else Failure(MissingFile(path))
  }

  /** A lookup fails on a missing class, then on an index outside Python's range, then on a
      missing file; an index in range reads exactly the file at that position. */
  lemma LookupCases(files: map<Label, seq<string>>, fs: map<string, string>, e: Entry)
    ensures var r := Lookup(files, fs, e);
      && (e.cls !in files ==> r == Failure(MissingClass(e.cls)))
      && (e.cls in files && !(-|files[e.cls]| <= e.index < |files[e.cls]|) ==> r == Failure(IndexOutOfRange(e.cls, e.index)))
      && (e.cls in files && -|files[e.cls]| <= e.index < |files[e.cls]| ==>
            var paths := files[e.cls];
            var path := paths[if e.index >= 0 then e.index else |paths| + e.index];
            r == (if path in fs then Success(fs[path]) else Failure(MissingFile(path))))
  {
  }

  /** A negative index in range names the same position as its distance from the end. */
  lemma IndexFromEnd<T>(xs: seq<T>, i: int)
    requires -|xs| <= i < 0
    ensures PyIndex(xs, i) == PyIndex(xs, |xs| + i)
    ensures i == -1 ==> PyIndex(xs, i) == Some(xs[|xs| - 1])
  {
  }

  /** Looking up an entry with a negative index reads the same file as the entry with the
      matching non-negative index, and fails in the same way. */
  lemma LookupFromEnd(files: map<Label, seq<string>>, fs: map<string, string>, c: Label, i: int)
    requires c in files && -|files[c]| <= i < 0
    ensures Lookup(files, fs, Entry(c, i)) == Lookup(files, fs, Entry(c, |files[c]| + i))
  {
    IndexFromEnd(files[c], i);
  }

  predicate Found(files: map<Label, seq<string>>, fs: map<string, string>, e: Entry) {
    Lookup(files, fs, e).Success?
  }

  predicate AllFound(entries: seq<Entry>, files: map<Label, seq<string>>, fs: map<string, string>) {
    forall k :: 0 <= k < |entries| ==> Found(files, fs, entries[k])
  }

  /** A record without its line end: the label in decimal, one space, the review unchanged. */
  function RecordLine(cls: Label, content: string): string {
    Decimal.IntToString(cls) + " " + content
  }

  /** `'{} {}\n'.format(c, review)`. The review is not escaped: its newlines pass through. */
  function EncodeRecord(cls: Label, content: string): string {
    RecordLine(cls, content) + "\n"
  }

  /** Reads one record line: the label up to the first space, the review after it. */
  function DecodeLine(line: string): Option<(Label, string)> {
    var cut := IndexOf(' ', line);
    if cut == |line| then None
    else match Decimal.ParseInt(line[..cut])
      case None => None
      case Some(cls) => Some((cls, line[cut + 1..]))
  }

  /** Reads one whole record, line end included. */
  function DecodeRecord(record: string): Option<(Label, string)> {
    if |record| > 0 && record[|record| - 1] == '\n' then DecodeLine(record[..|record| - 1])
    else None
  }

  /** A record line gives back its label and its review, whatever the review holds. */
  lemma LineRoundTrip(cls: Label, content: string)
    ensures DecodeLine(RecordLine(cls, content)) == Some((cls, content))
  {
    var digits := Decimal.IntToString(cls);
    var line := RecordLine(cls, content);
    assert line[|digits|] == ' ';
    assert IndexOf(' ', line) == |digits|;
    assert line[..|digits|] == digits;
    assert line[|digits| + 1..] == content;
    Decimal.IntRoundTrip(cls);
  }

  /** A written record gives back its label and its review, whatever the review holds. */
  lemma RecordRoundTrip(cls: Label, content: string)
    ensures DecodeRecord(EncodeRecord(cls, content)) == Some((cls, content))
  {
    var record := EncodeRecord(cls, content);
    assert record[..|record| - 1] == RecordLine(cls, content);
    LineRoundTrip(cls, content);
  }

  /** A record holds one newline more than its review. */
  lemma RecordNewlines(cls: Label, content: string)
    ensures multiset(EncodeRecord(cls, content))['\n'] == multiset(content)['\n'] + 1
  {
    assert '\n' !in Decimal.IntToString(cls);
  }

  /** The review a found entry points at (empty for an entry that is not found). */
  function ContentOf(files: map<Label, seq<string>>, fs: map<string, string>, e: Entry): string {
    match Lookup(files, fs, e)
    case Success(content) => content
    case Failure(_) => ""
  }

  /** The record lines of a split, without line ends, one per entry in order. */
  function RecordLines(entries: seq<Entry>, files: map<Label, seq<string>>, fs: map<string, string>): (lines: seq<string>)
    ensures |lines| == |entries|
  {
    seq(|entries|, k requires 0 <= k < |entries| => RecordLine(entries[k].cls, ContentOf(files, fs, entries[k])))
  }

  /** The text of a split: one record per entry, in order. */
  function RecordsText(entries: seq<Entry>, files: map<Label, seq<string>>, fs: map<string, string>): string {
    Terminate('\n', RecordLines(entries, files, fs))
  }

  /** Position of the first entry that cannot be looked up, or the number of entries. */
  function FirstMissing(entries: seq<Entry>, files: map<Label, seq<string>>, fs: map<string, string>): (f: nat)
    ensures f <= |entries|
    ensures AllFound(entries[..f], files, fs)
    ensures f < |entries| ==> !Found(files, fs, entries[f])
    decreases |entries|
  {
    if |entries| == 0 then 0
    else if !Found(files, fs, entries[0]) then 0
    else
      var f := 1 + FirstMissing(entries[1..], files, fs);
      assert forall k :: 1 <= k < f ==> entries[..f][k] == entries[1..][..f - 1][k - 1];
      f
  }

  /** What the output file holds once `_save_dataset` returns or raises. */
  datatype SaveOutcome = Saved(text: string) | Aborted(partial: string, error: LookupError)

  /** `_save_dataset`: one record per entry in order; the first entry that cannot be looked up
      stops the loop, leaving the records already written in the file. */
  method SaveDataset(entries: seq<Entry>, files: map<Label, seq<string>>, fs: map<string, string>)
    returns (out: SaveOutcome)
    ensures out.Saved? <==> AllFound(entries, files, fs)
    ensures out.Saved? ==> out.text == RecordsText(entries, files, fs)
    ensures out.Aborted? ==>
      var f := FirstMissing(entries, files, fs);
      && f < |entries|
      && out.partial == RecordsText(entries[..f], files, fs)
      && Lookup(files, fs, entries[f]) == Failure(out.error)
  {
    var text := "";
    var k := 0;
    while k < |entries|
      invariant 0 <= k <= |entries|
      invariant AllFound(entries[..k], files, fs)
      invariant text == RecordsText(entries[..k], files, fs)
    {
      var e := entries[k];
      var read := Lookup(files, fs, e);
      if read.Failure? {
        FirstMissingIs(entries, files, fs, k);
        assert !Found(files, fs, entries[k]);
        return Aborted(text, read.error);
      }
      assert read.value == ContentOf(files, fs, entries[k]);
      FoundStep(entries, files, fs, k);
      RecordsStep(entries, files, fs, k);
      text := text + EncodeRecord(e.cls, read.value);
      k := k + 1;
    }
    assert entries[..k] == entries;
    return Saved(text);
  }

  /** Lengthening a prefix by entry `k` appends that entry's record line. */
  lemma RecordLinesPrefix(entries: seq<Entry>, files: map<Label, seq<string>>, fs: map<string, string>, k: nat)
    requires k < |entries|
    ensures RecordLines(entries[..k + 1], files, fs)
      == RecordLines(entries[..k], files, fs) + [RecordLine(entries[k].cls, ContentOf(files, fs, entries[k]))]
  {
    var longer, shorter := RecordLines(entries[..k + 1], files, fs), RecordLines(entries[..k], files, fs);
    forall j | 0 <= j < k
      ensures longer[j] == shorter[j]
    {
      assert entries[..k + 1][j] == entries[..k][j];
    }
  }

  /** Writing one more entry appends its record. */
  lemma RecordsStep(entries: seq<Entry>, files: map<Label, seq<string>>, fs: map<string, string>, k: nat)
    requires k < |entries|
    ensures RecordsText(entries[..k + 1], files, fs)
      == RecordsText(entries[..k], files, fs) + EncodeRecord(entries[k].cls, ContentOf(files, fs, entries[k]))
  {
    var line := RecordLine(entries[k].cls, ContentOf(files, fs, entries[k]));
    RecordLinesPrefix(entries, files, fs, k);
    TerminateSnoc('\n', RecordLines(entries[..k], files, fs), line);
  }

  /** A found prefix grows by one found entry. */
  lemma FoundStep(entries: seq<Entry>, files: map<Label, seq<string>>, fs: map<string, string>, k: nat)
    requires k < |entries|
    requires AllFound(entries[..k], files, fs)
    requires Found(files, fs, entries[k])
    ensures AllFound(entries[..k + 1], files, fs)
  {
    assert forall j :: 0 <= j < k ==> entries[..k + 1][j] == entries[..k][j];
  }

  /** The first entry that cannot be looked up after a found prefix is the first missing one. */
  lemma {:induction false} FirstMissingIs(entries: seq<Entry>, files: map<Label, seq<string>>, fs: map<string, string>, k: nat)
    requires k < |entries|
    requires AllFound(entries[..k], files, fs)
    requires !Found(files, fs, entries[k])
    ensures FirstMissing(entries, files, fs) == k
    decreases k
  {
    if k > 0 {
      assert Found(files, fs, entries[..k][0]);
      assert entries[1..][..k - 1] == entries[..k][1..];
      FirstMissingIs(entries[1..], files, fs, k - 1);
    }
  }

  /** Entries that the sampler drew from a part's own population description are all found,
      provided every file of the part can be read. */
  lemma SampledEntriesFound(entries: seq<Entry>, part: CorpusPart, fs: map<string, string>)
    requires forall k :: 0 <= k < |entries| ==>
      exists c :: c in Population(part) && c.cls == entries[k].cls && 0 <= entries[k].index < c.count
    requires forall k :: 0 <= k < |part.pos| ==> part.pos[k] in fs
    requires forall k :: 0 <= k < |part.neg| ==> part.neg[k] in fs
    ensures AllFound(entries, ClassFiles(part), fs)
  {
    forall k | 0 <= k < |entries|
      ensures Found(ClassFiles(part), fs, entries[k])
    {
      var c :| c in Population(part) && c.cls == entries[k].cls && 0 <= entries[k].index < c.count;
      LookupCases(ClassFiles(part), fs, entries[k]);
    }
  }

  /** When no review holds a newline, the written split reads back as one line per entry,
      in order, each carrying its entry's label and review, and nothing after the last
      line end. */
  lemma SavedLines(entries: seq<Entry>, files: map<Label, seq<string>>, fs: map<string, string>)
    requires AllFound(entries, files, fs)
    requires forall k :: 0 <= k < |entries| ==> '\n' !in ContentOf(files, fs, entries[k])
    ensures var lines := Split('\n', RecordsText(entries, files, fs));
      && |lines| == |entries| + 1
      && lines[|entries|] == ""
      && forall k :: 0 <= k < |entries| ==>
           DecodeLine(lines[k]) == Some((entries[k].cls, ContentOf(files, fs, entries[k])))
  {
    var recs := RecordLines(entries, files, fs);
    var parts := recs + [""];
    forall k | 0 <= k < |parts|
      ensures '\n' !in parts[k]
    {
      if k < |entries| {
        assert '\n' !in Decimal.IntToString(entries[k].cls);
      }
    }
    TerminateJoin('\n', recs);
    SplitJoin('\n', parts);
    forall k | 0 <= k < |entries|
      ensures DecodeLine(parts[k]) == Some((entries[k].cls, ContentOf(files, fs, entries[k])))
    {
      LineRoundTrip(entries[k].cls, ContentOf(files, fs, entries[k]));
    }
  }
}

=== FILE: decimal.dfy ===
/** Python's `str(i)` / `'{}'.format(i)` for integers, and a reader that inverts it. */
module Decimal {
  import opened Wrappers

  predicate IsDigit(ch: char) {
    '0' <= ch <= '9'
  }

  function DigitChar(d: nat): (ch: char)
    requires d < 10
    ensures IsDigit(ch)
  {
    (48 + d) as char
  }

  function DigitValue(ch: char): (d: nat)
    requires IsDigit(ch)
    ensures d < 10 && DigitChar(d) == ch
  {
    (ch as int - 48) as nat
  }

  /** Decimal digits of `n`, most significant first, with no leading zero. */
  function NatToString(n: nat): (r: string)
    ensures |r| >= 1
    ensures forall k :: 0 <= k < |r| ==> IsDigit(r[k])
    ensures r[0] == '0' ==> n == 0 && r == "0"
  {
    if n < 10 then [DigitChar(n)]
    else NatToString(n / 10) + [DigitChar(n % 10)]
  }

  /** `str(i)`: a minus sign for negative values, then the digits of the magnitude. */
  function IntToString(i: int): (r: string)
    ensures Canonical(r)
    ensures ' ' !in r && '\n' !in r
    ensures r[0] == '-' <==> i < 0
  {
    if i < 0 then "-" + NatToString(-i) else NatToString(i)
  }

  /** The value of a non-empty run of decimal digits. */
  function DigitsValue(s: string): nat
    requires |s| >= 1
    requires forall k :: 0 <= k < |s| ==> IsDigit(s[k])
  {
    if |s| == 1 then DigitValue(s[0])
    else 10 * DigitsValue(s[..|s| - 1]) + DigitValue(s[|s| - 1])
  }

  predicate AllDigits(s: string) {
    |s| >= 1 && forall k :: 0 <= k < |s| ==> IsDigit(s[k])
  }

  /** Digits with no leading zero, except for the single digit `0`. */
  predicate CanonicalDigits(s: string) {
    AllDigits(s) && (s[0] == '0' ==> |s| == 1)
  }

  /** The shape of Python's `str(int)`: canonical digits, or a minus sign followed by
      canonical digits that do not start with `0` (there is no `-0`). */
  predicate Canonical(s: string) {
    CanonicalDigits(s) || (|s| >= 2 && s[0] == '-' && CanonicalDigits(s[1..]) && s[1] != '0')
  }

  /** Reads an optionally negative decimal integer; anything else is rejected. */
  function ParseInt(s: string): Option<int> {
    if |s| >= 1 && s[0] == '-' then
      if AllDigits(s[1..]) then Some(-(DigitsValue(s[1..]) as int)) else None
    else if AllDigits(s) then Some(DigitsValue(s))
    else None
  }

  lemma {:induction false} DigitsRoundTrip(n: nat)
    ensures DigitsValue(NatToString(n)) == n
  {
    if n >= 10 {
      var s := NatToString(n);
      assert s[..|s| - 1] == NatToString(n / 10);
      DigitsRoundTrip(n / 10);
    }
  }

  /** Reading back what `str(i)` wrote gives `i`, for every integer. */
  lemma IntRoundTrip(i: int)
    ensures ParseInt(IntToString(i)) == Some(i)
  {
    if i < 0 {
      assert IntToString(i)[1..] == NatToString(-i);
      DigitsRoundTrip(-i);
    } else {
      DigitsRoundTrip(i);
    }
  }

  /** Digits that do not start with `0` have a positive value. */
  lemma {:induction false} LeadingNonZero(s: string)
    requires AllDigits(s) && s[0] != '0'
    ensures DigitsValue(s) >= 1
    decreases |s|
  {
    if |s| == 1 {
      assert DigitChar(0) == '0';
    } else {
      LeadingNonZero(s[..|s| - 1]);
    }
  }

  /** Writing the value of canonical digits gives the same digits back. */
  lemma {:induction false} DigitsCanonical(s: string)
    requires CanonicalDigits(s)
    ensures NatToString(DigitsValue(s)) == s
    decreases |s|
  {
    if |s| > 1 {
      var init, last := s[..|s| - 1], s[|s| - 1];
      assert init[0] == s[0] != '0';
      LeadingNonZero(init);
      DigitsCanonical(init);
      var v := DigitsValue(s);
      assert v / 10 == DigitsValue(init) && v % 10 == DigitValue(last);
      assert init + [last] == s;
    }
  }

  /** Every canonical decimal text is what `str(i)` writes for the integer it reads as. */
  lemma CanonicalRoundTrip(s: string)
    requires Canonical(s)
    ensures ParseInt(s).Some? && IntToString(ParseInt(s).value) == s
  {
    if s[0] == '-' {
      var d := s[1..];
      LeadingNonZero(d);
      DigitsCanonical(d);
      assert s == "-" + d;
    } else {
      DigitsCanonical(s);
    }
  }

  /** Two canonical texts that read as the same integer are the same text, so `Canonical`
      together with the value fixes the text `str(i)` writes. */
  lemma CanonicalUnique(a: string, b: string)
    requires Canonical(a) && Canonical(b) && ParseInt(a) == ParseInt(b)
    ensures a == b
  {
    CanonicalRoundTrip(a);
    CanonicalRoundTrip(b);
  }
}

=== FILE: markdown.dfy ===
/** The Markdown text that the notebook helpers hand to `display_markdown`. */
module Markdown {
  import opened Wrappers
  import opened Strings
  import Decimal

  /** A table cell as `str(cell)` sees it: text prints as itself, an integer in decimal. */
  datatype Cell = Text(s: string) | Number(i: int)

  function Str(cell: Cell): (r: string)
    ensures cell.Text? ==> r == cell.s
    ensures cell.Number? ==> Decimal.Canonical(r) && Decimal.ParseInt(r) == Some(cell.i)
  {
    match cell
    case Text(s) => s
    case Number(i) => Decimal.IntRoundTrip(i); Decimal.IntToString(i)
  }

  /** The cells of one row, each converted with `str`. */
  function Strs(row: seq<Cell>): seq<string> {
    seq(|row|, k requires 0 <= k < |row| => Str(row[k]))
  }

  // ---------------------------------------------------------------- headings

  const H4Prefix: string := "#### "

  /** An ATX heading as a Markdown reader sees it: its level and its text. */
  datatype Heading = Heading(level: nat, text: string)

  /** Number of `#` characters that open the line. */
  function LeadingHashes(line: string): (n: nat)
    ensures n <= |line|
    ensures forall j :: 0 <= j < n ==> line[j] == '#'
    ensures n < |line| ==> line[n] != '#'
  {
    if |line| > 0 && line[0] == '#' then 1 + LeadingHashes(line[1..]) else 0
  }

  /** Reads a line as an ATX heading: one to six `#`, a space, then the heading text. */
  function ParseHeading(line: string): Option<Heading> {
    var n := LeadingHashes(line);
    if 1 <= n <= 6 && n < |line| && line[n] == ' ' then Some(Heading(n, line[n + 1..]))
    else None
  }

  /** `print_h4(s)`: the text shown is read back as a level-four heading whose text is `s`. */
  function H4(s: string): (r: string)
    ensures ParseHeading(r) == Some(Heading(4, s))
  {
    var r := H4Prefix + s;
    assert r[4..] == " " + s;
    assert LeadingHashes(r[4..]) == 0;
    assert r[3..][1..] == r[4..];
    assert r[2..][1..] == r[3..];
    assert r[1..][1..] == r[2..];
    r
  }

  // ---------------------------------------------------------------- tables

  /** The header line: cells between bars, with no space inside the outer bars. */
  function HeaderLine(header: seq<string>): string {
    "|" + Join(" | ", header) + "|"
  }

  /** The line under the header: one `|--` per column, then a closing bar. */
  function SeparatorLine(nCols: nat): string {
    Repeat("|--", nCols) + "|"
  }

  /** A data line: cells between bars, padded by one space inside the outer bars. */
  function RowLine(row: seq<Cell>): string {
    "| " + Join(" | ", Strs(row)) + " |"
  }

  /** The lines `print_table` builds: header, then (only when there are rows) a separator
      sized by the FIRST row, then one line per row in input order. */
  function TableLines(header: seq<string>, rows: seq<seq<Cell>>): (lines: seq<string>)
    ensures |lines| == if |rows| == 0 then 1 else |rows| + 2
    ensures lines[0] == HeaderLine(header)
    ensures |rows| > 0 ==> lines[1] == SeparatorLine(|rows[0]|)
    ensures forall k :: 0 <= k < |rows| ==> lines[k + 2] == RowLine(rows[k])
  {
    if |rows| == 0 then [HeaderLine(header)]
    else [HeaderLine(header), SeparatorLine(|rows[0]|)] + seq(|rows|, k requires 0 <= k < |rows| => RowLine(rows[k]))
  }

  /** The text `print_table` hands to `display_markdown`: its lines joined by newlines. */
  function RenderTable(header: seq<string>, rows: seq<seq<Cell>>): string {
    Join("\n", TableLines(header, rows))
  }

  /** `print_table`: the loop over `enumerate(rows)` that adds the separator at index 0. */
  method PrintTable(header: seq<string>, rows: seq<seq<Cell>>) returns (text: string)
    ensures text == RenderTable(header, rows)
  {
    var md := [HeaderLine(header)];
    var i := 0;
    while i < |rows|
      invariant 0 <= i <= |rows|
      invariant md == TableLines(header, rows[..i])
    {
      var row := rows[i];
      assert rows[..i + 1] == rows[..i] + [row];
      if i == 0 {
        var nCols := |row|;
        md := md + [SeparatorLine(nCols)];
      }
      md := md + [RowLine(row)];
      i := i + 1;
    }
    assert rows[..i] == rows;
    text := Join("\n", md);
  }

  // ---------------------------------------------------------------- reader's view

  function Pad(on: bool): string {
    if on then " " else ""
  }

  /** The text between two bars for each cell of `xs`, when the cells are joined by " | "
      and the outer ends are padded as `lead` and `trail` say. */
  function Pieces(xs: seq<string>, lead: bool, trail: bool): seq<string> {
    seq(|xs|, k requires 0 <= k < |xs| => Pad(k > 0 || lead) + xs[k] + Pad(k < |xs| - 1 || trail))
  }

  lemma {:induction false} JoinPadded(xs: seq<string>, lead: bool, trail: bool)
    requires |xs| > 0
    ensures Pad(lead) + Join(" | ", xs) + Pad(trail) == Join("|", Pieces(xs, lead, trail))
    decreases |xs|
  {
    if |xs| > 1 {
      var rest := Pieces(xs[1..], true, trail);
      JoinPadded(xs[1..], true, trail);
      PiecesCons(xs, lead, trail);
      JoinCons("|", Pad(lead) + xs[0] + " ", rest);
      JoinCons(" | ", xs[0], xs[1..]);
      assert [xs[0]] + xs[1..] == xs;
      BarSpacing(Pad(lead), xs[0], Join(" | ", xs[1..]), Pad(trail));
    }
  }

  /** Peeling the first cell off a row of pieces. */
  lemma PiecesCons(xs: seq<string>, lead: bool, trail: bool)
    requires |xs| > 1
    ensures Pieces(xs, lead, trail) == [Pad(lead) + xs[0] + " "] + Pieces(xs[1..], true, trail)
  {
    var p, q := Pieces(xs, lead, trail), Pieces(xs[1..], true, trail);
    assert Pad(true) == " ";
    assert p[0] == Pad(lead) + xs[0] + " ";
    forall k | 0 <= k < |q|
      ensures p[k + 1] == q[k]
    {
      assert xs[1..][k] == xs[k + 1];
    }
    assert p == [p[0]] + q;
  }

  /** " | " is a bar with one space on each side. */
  lemma BarSpacing(a: string, b: string, c: string, d: string)
    ensures a + (b + " | " + c) + d == (a + b + " ") + "|" + (" " + c + d)
  {
  }

  /** Bars that delimit `pieces` on both sides. */
  lemma Framed(pieces: seq<string>)
    requires |pieces| > 0
    ensures "|" + Join("|", pieces) + "|" == Join("|", [""] + pieces + [""])
  {
    var tail := pieces + [""];
    ClosingBar(pieces);
    OpeningBar(tail);
    assert [""] + pieces + [""] == [""] + tail;
  }

  lemma ClosingBar(pieces: seq<string>)
    requires |pieces| > 0
    ensures Join("|", pieces + [""]) == Join("|", pieces) + "|"
  {
    JoinSnoc("|", pieces, "");
    assert Join("|", pieces) + "|" + "" == Join("|", pieces) + "|";
  }

  lemma OpeningBar(parts: seq<string>)
    requires |parts| > 0
    ensures Join("|", [""] + parts) == "|" + Join("|", parts)
  {
    JoinCons("|", "", parts);
    assert "" + "|" + Join("|", parts) == "|" + Join("|", parts);
  }

  /** No piece of a framed, bar-free list of pieces holds a bar. */
  lemma FramedBarFree(pieces: seq<string>)
    requires forall k :: 0 <= k < |pieces| ==> '|' !in pieces[k]
    ensures forall k :: 0 <= k < |pieces| + 2 ==> '|' !in ([""] + pieces + [""])[k]
  {
    var parts := [""] + pieces + [""];
    forall k | 0 <= k < |parts|
      ensures '|' !in parts[k]
    {
      if 0 < k < |parts| - 1 {
        assert parts[k] == pieces[k - 1];
      }
    }
  }

  /** Padding adds no bar. */
  lemma PiecesBarFree(xs: seq<string>, lead: bool, trail: bool)
    requires forall k :: 0 <= k < |xs| ==> '|' !in xs[k]
    ensures forall k :: 0 <= k < |xs| ==> '|' !in Pieces(xs, lead, trail)[k]
  {
    var p := Pieces(xs, lead, trail);
    forall k | 0 <= k < |xs|
      ensures '|' !in p[k]
    {
      var a, b := Pad(k > 0 || lead), Pad(k < |xs| - 1 || trail);
      assert '|' !in a && '|' !in b;
      assert p[k] == a + xs[k] + b;
    }
  }

  /** Split on `|`, the header line shows each cell with no space against the outer bars. */
  lemma HeaderColumns(header: seq<string>)
    requires forall k :: 0 <= k < |header| ==> '|' !in header[k]
    ensures Split('|', HeaderLine(header)) == [""] + (if |header| == 0 then [""] else Pieces(header, false, false)) + [""]
  {
    if |header| == 0 {
      assert HeaderLine(header) == Join("|", ["", "", ""]);
      SplitJoin('|', ["", "", ""]);
    } else {
      var p := Pieces(header, false, false);
      JoinPadded(header, false, false);
      assert HeaderLine(header) == "|" + Join("|", p) + "|";
      PiecesBarFree(header, false, false);
      Framed(p);
      FramedBarFree(p);
      SplitJoin('|', [""] + p + [""]);
    }
  }

  /** Split on `|`, a data line shows every cell with one space on each side. */
  lemma RowColumns(row: seq<Cell>)
    requires forall k :: 0 <= k < |row| ==> '|' !in Str(row[k])
    ensures Split('|', RowLine(row)) == [""] + (if |row| == 0 then ["  "] else Pieces(Strs(row), true, true)) + [""]
  {
    var cells := Strs(row);
    if |row| == 0 {
      assert RowLine(row) == Join("|", ["", "  ", ""]);
      SplitJoin('|', ["", "  ", ""]);
    } else {
      var p := Pieces(cells, true, true);
      JoinPadded(cells, true, true);
      assert RowLine(row) == "|" + Join("|", p) + "|";
      PiecesBarFree(cells, true, true);
      Framed(p);
      FramedBarFree(p);
      SplitJoin('|', [""] + p + [""]);
    }
  }

  /** `n` columns of `--`. */
  function Dashes(n: nat): seq<string> {
    seq(n, _ => "--")
  }

  /** Split on `|`, the separator line shows exactly `nCols` columns of `--`. */
  lemma {:induction false} SeparatorColumns(nCols: nat)
    ensures Split('|', SeparatorLine(nCols)) == [""] + Dashes(nCols) + [""]
  {
    if nCols == 0 {
      assert SeparatorLine(0) == "" + "|" + "";
      SplitAfter('|', "", "");
    } else {
      var prev := SeparatorLine(nCols - 1);
      var tail := prev[1..];
      SeparatorColumns(nCols - 1);
      assert prev == "" + "|" + tail;
      SplitAfter('|', "", tail);
      assert Split('|', tail) == ([""] + Split('|', tail))[1..];
      assert Split('|', tail) == Dashes(nCols - 1) + [""];
      SplitAfter('|', "--", tail);
      assert Split('|', "--" + "|" + tail) == ["--"] + Dashes(nCols - 1) + [""];
      assert SeparatorLine(nCols) == "" + "|" + ("--" + "|" + tail);
      SplitAfter('|', "", "--" + "|" + tail);
      assert Dashes(nCols) == ["--"] + Dashes(nCols - 1);
    }
  }

  /** A line has the shape of a separator line. */
  predicate IsSeparator(line: string) {
    |line| % 3 == 1 && line == SeparatorLine(|line| / 3)
  }

  /** A data line never has the shape of a separator line. */
  lemma RowIsNotSeparator(row: seq<Cell>)
    ensures !IsSeparator(RowLine(row))
  {
    var line := RowLine(row);
    var n := |line| / 3;
    if n > 0 {
      assert SeparatorLine(n)[1] == '-';
    }
  }

  /** The separator is present exactly when there are rows: then the second line has its shape,
      with as many columns as the first row has cells, and no later line has it; without rows
      the table is the header line alone. */
  lemma SeparatorPlacement(header: seq<string>, rows: seq<seq<Cell>>)
    ensures var lines := TableLines(header, rows);
      && (|rows| > 0 ==> IsSeparator(lines[1]) && |Split('|', lines[1])| == |rows[0]| + 2)
      && (forall k :: 2 <= k < |lines| ==> !IsSeparator(lines[k]))
      && (|rows| == 0 ==> lines == [HeaderLine(header)])
  {
    var lines := TableLines(header, rows);
    if |rows| > 0 {
      var n := |rows[0]|;
      assert |SeparatorLine(n)| == 3 * n + 1;
      assert |lines[1]| / 3 == n;
      SeparatorColumns(n);
    }
    forall k | 2 <= k < |lines|
      ensures !IsSeparator(lines[k])
    {
      RowIsNotSeparator(rows[k - 2]);
    }
  }

  /** The separator depends on the first row only: the header's width does not enter it. */
  lemma SeparatorIgnoresHeader(h1: seq<string>, h2: seq<string>, rows: seq<seq<Cell>>)
    requires |rows| > 0
    ensures TableLines(h1, rows)[1] == TableLines(h2, rows)[1]
    ensures TableLines(h1, rows)[1..] == TableLines(h2, rows)[1..]
  {
  }

  /** A header line and a data line of the same texts differ only by the inner padding
      next to the outer bars. */
  lemma HeaderUnpadded(header: seq<string>)
    ensures var row := seq(|header|, k requires 0 <= k < |header| => Text(header[k]));
      RowLine(row) == "| " + HeaderLine(header)[1..|HeaderLine(header)| - 1] + " |"
  {
    var row := seq(|header|, k requires 0 <= k < |header| => Text(header[k]));
    assert Strs(row) == header;
  }

  /** Every line opens and closes with a bar. */
  lemma LineBars(header: seq<string>, rows: seq<seq<Cell>>, k: nat)
    requires k < |TableLines(header, rows)|
    ensures var line := TableLines(header, rows)[k];
      |line| > 0 && line[0] == '|' && line[|line| - 1] == '|'
  {
    var lines := TableLines(header, rows);
    if k == 1 && |rows| > 0 {
      var n := |rows[0]|;
      if n > 0 {
        assert SeparatorLine(n) == "|--" + SeparatorLine(n - 1);
      }
    }
  }

  /** The rendered text starts and ends with a bar: in particular it has no trailing newline. */
  lemma RenderedEnds(header: seq<string>, rows: seq<seq<Cell>>)
    ensures var text := RenderTable(header, rows);
      |text| > 0 && text[0] == '|' && text[|text| - 1] == '|'
  {
    var lines := TableLines(header, rows);
    var last := |lines| - 1;
    LineBars(header, rows, 0);
    LineBars(header, rows, last);
    JoinLast("\n", lines);
  }

  /** When no cell contains a newline, splitting the rendered text at newlines gives back
      exactly the table's lines: one per row plus the header and the separator. */
  lemma RenderedLines(header: seq<string>, rows: seq<seq<Cell>>)
    requires forall k :: 0 <= k < |header| ==> '\n' !in header[k]
    requires forall r, k :: 0 <= r < |rows| && 0 <= k < |rows[r]| ==> '\n' !in Str(rows[r][k])
    ensures Split('\n', RenderTable(header, rows)) == TableLines(header, rows)
  {
    var lines := TableLines(header, rows);
    forall k | 0 <= k < |lines|
      ensures '\n' !in lines[k]
    {
      if k == 0 {
        JoinAvoids('\n', " | ", header);
      } else if k == 1 && |rows| > 0 {
        assert '\n' !in Repeat("|--", |rows[0]|);
      } else {
        var row := rows[k - 2];
        JoinAvoids('\n', " | ", Strs(row));
      }
    }
    SplitJoin('\n', lines);
  }
}

=== FILE: strings.dfy ===
/** Python's string joining, splitting and repetition, as the rendering code uses them. */
module Strings {

  /** `sep.join(parts)`: the parts with `sep` between neighbours; the empty list joins to "". */
  function Join(sep: string, parts: seq<string>): (r: string)
    ensures |parts| > 0 ==> parts[0] <= r
    ensures |parts| == 0 ==> r == ""
    decreases |parts|
  {
    if |parts| == 0 then ""
    else if |parts| == 1 then parts[0]
    else parts[0] + sep + Join(sep, parts[1..])
  }

  /** `s.split(c)`: the maximal pieces of `s` between occurrences of `c`; never empty. */
  function Split(c: char, s: string): (r: seq<string>)
    ensures |r| >= 1
    ensures forall k :: 0 <= k < |r| ==> c !in r[k]
    decreases |s|
  {
    if |s| == 0 then [""]
    else if s[0] == c then [""] + Split(c, s[1..])
    else
      var rest := Split(c, s[1..]);
      [[s[0]] + rest[0]] + rest[1..]
  }

  /** `s * n`: `n` copies of `s` back to back. */
  function Repeat(s: string, n: nat): (r: string)
    ensures |r| == |s| * n
    ensures forall k :: 0 <= k < |r| ==> r[k] in s
  {
    if n == 0 then "" else s + Repeat(s, n - 1)
  }

  /** Position of the first `c` in `s`, or `|s|` when there is none (`s.find(c)` with -1 mapped to `|s|`). */
  function IndexOf(c: char, s: string): (r: nat)
    ensures r <= |s|
    ensures r < |s| ==> s[r] == c
    ensures forall j :: 0 <= j < r ==> s[j] != c
    decreases |s|
  {
    if |s| == 0 then 0
    else if s[0] == c then 0
    else 1 + IndexOf(c, s[1..])
  }

  /** Splitting a piece free of `c` leaves it whole. */
  lemma {:induction false} SplitWithout(c: char, p: string)
    requires c !in p
    ensures Split(c, p) == [p]
    decreases |p|
  {
    if |p| > 0 {
      assert p[0] != c;
      SplitWithout(c, p[1..]);
      assert [p[0]] + p[1..] == p;
    }
  }

  /** Splitting stops at the first separator and carries on after it. */
  lemma {:induction false} SplitAfter(c: char, p: string, t: string)
    requires c !in p
    ensures Split(c, p + [c] + t) == [p] + Split(c, t)
    decreases |p|
  {
    if |p| == 0 {
      assert p + [c] + t == [c] + t;
      assert (p + [c] + t)[1..] == t;
    } else {
      assert (p + [c] + t)[1..] == p[1..] + [c] + t;
      SplitAfter(c, p[1..], t);
      assert [p[0]] + p[1..] == p;
    }
  }

  /** The first part of a join is followed by the separator and the join of the rest. */
  lemma JoinCons(sep: string, p: string, rest: seq<string>)
    requires |rest| > 0
    ensures Join(sep, [p] + rest) == p + sep + Join(sep, rest)
  {
    assert ([p] + rest)[1..] == rest;
  }

  /** Joining on a one-character separator and splitting on it gives the parts back. */
  lemma {:induction false} SplitJoin(c: char, parts: seq<string>)
    requires |parts| > 0
    requires forall k :: 0 <= k < |parts| ==> c !in parts[k]
    ensures Split(c, Join([c], parts)) == parts
    decreases |parts|
  {
    if |parts| == 1 {
      SplitWithout(c, parts[0]);
    } else {
      SplitJoin(c, parts[1..]);
      SplitAfter(c, parts[0], Join([c], parts[1..]));
      assert [parts[0]] + parts[1..] == parts;
    }
  }

  /** Splitting on a character and joining the pieces on it gives the string back. */
  lemma {:induction false} JoinSplit(c: char, s: string)
    ensures Join([c], Split(c, s)) == s
    decreases |s|
  {
    if |s| > 0 {
      var tail := s[1..];
      var rest := Split(c, tail);
      JoinSplit(c, tail);
      assert s == [s[0]] + tail;
      if s[0] == c {
        assert Split(c, s) == [""] + rest;
        JoinCons([c], "", rest);
      } else if |rest| == 1 {
        assert Split(c, s) == [[s[0]] + rest[0]];
      } else {
        var head := [s[0]] + rest[0];
        assert Split(c, s) == [head] + rest[1..];
        JoinCons([c], head, rest[1..]);
        assert rest == [rest[0]] + rest[1..];
        JoinCons([c], rest[0], rest[1..]);
      }
    }
  }

  /** Appending a part to a non-empty list appends the separator and the part to the join. */
  lemma {:induction false} JoinSnoc(sep: string, parts: seq<string>, q: string)
    requires |parts| > 0
    ensures Join(sep, parts + [q]) == Join(sep, parts) + sep + q
    decreases |parts|
  {
    if |parts| == 1 {
      assert (parts + [q])[1..] == [q];
    } else {
      assert (parts + [q])[1..] == parts[1..] + [q];
      JoinSnoc(sep, parts[1..], q);
    }
  }

  /** A character that is in neither the separator nor any part is not in the join. */
  lemma {:induction false} JoinAvoids(c: char, sep: string, parts: seq<string>)
    requires c !in sep
    requires forall k :: 0 <= k < |parts| ==> c !in parts[k]
    ensures c !in Join(sep, parts)
    decreases |parts|
  {
    if |parts| > 1 {
      JoinAvoids(c, sep, parts[1..]);
    }
  }

  /** Adding a line to text whose lines all end in `c` keeps that shape. */
  lemma AppendTerminated(c: char, parts: seq<string>, q: string)
    ensures Join([c], parts + [""]) + (q + [c]) == Join([c], parts + [q] + [""])
  {
    if |parts| == 0 {
      assert parts + [""] == [""];
      assert parts + [q] + [""] == [q, ""];
      JoinCons([c], q, [""]);
    } else {
      var j := Join([c], parts);
      JoinSnoc([c], parts, "");
      JoinSnoc([c], parts, q);
      JoinSnoc([c], parts + [q], "");
      assert Join([c], parts + [""]) == j + [c];
      assert Join([c], parts + [q] + [""]) == j + [c] + q + [c];
      assert j + [c] + q + [c] == (j + [c]) + (q + [c]);
    }
  }

  /** A join ends with the last character of its last part. */
  lemma {:induction false} JoinLast(sep: string, parts: seq<string>)
    requires |parts| > 0 && |parts[|parts| - 1]| > 0
    ensures var r, last := Join(sep, parts), parts[|parts| - 1];
      |r| > 0 && r[|r| - 1] == last[|last| - 1]
    decreases |parts|
  {
    if |parts| > 1 {
      JoinLast(sep, parts[1..]);
    }
  }

  /** Each part followed by `c`: the text of lines that all end in `c`. */
  function Terminate(c: char, parts: seq<string>): (r: string)
    ensures |parts| == 0 ==> r == ""
    decreases |parts|
  {
    if |parts| == 0 then ""
    else Terminate(c, parts[..|parts| - 1]) + parts[|parts| - 1] + [c]
  }

  /** One more part appends it and its terminator. */
  lemma TerminateSnoc(c: char, parts: seq<string>, q: string)
    ensures Terminate(c, parts + [q]) == Terminate(c, parts) + (q + [c])
  {
    assert (parts + [q])[..|parts|] == parts;
  }

  /** Terminated parts are the join of the parts followed by one empty part. */
  lemma {:induction false} TerminateJoin(c: char, parts: seq<string>)
    ensures Terminate(c, parts) == Join([c], parts + [""])
    decreases |parts|
  {
    if |parts| == 0 {
      assert parts + [""] == [""];
    } else {
      var init, q := parts[..|parts| - 1], parts[|parts| - 1];
      TerminateJoin(c, init);
      assert init + [q] == parts;
      TerminateSnoc(c, init, q);
      AppendTerminated(c, init, q);
    }
  }
}

=== FILE: wrappers.dfy ===
/** Failure-carrying datatypes shared by the other modules. */
module Wrappers {

  /** A value that may be absent. */
  datatype Option<+T> = None | Some(value: T)

  /** Either a value or the error that stopped its computation. */
  datatype Result<+T, +E> = Success(value: T) | Failure(error: E)
}
